=== FILE: README.md ===
# drone-logs: failure triage of a Drone CI build

This project models, in Dafny, the decision and text logic of `process.php`,
a script that reads one build of the Nextcloud server from a Drone CI server
and prints, for every proc that did not succeed, its failing steps and the
list of failed behaviour-test scenarios taken from each step's log.

The script's functions `printStats` and `getProcName` are modelled as pure
functions:

- `Logs` — a step's raw log is the in-order concatenation of the `out`
  fields of the log entries the server returns (`FullLog`, and the loop
  `AssembleLog` that builds it as the script does).
- `ProcName` — `getProcName`: the environment array rendered as `key=value`
  entries joined by `", "`, with a reader (`ParseProcName`) that recovers
  the environment from the label when keys hold no `=` and values no `,`.
- `Scenarios` — the pattern `--- Failed scenarios:\n\n(((.+)\n)+)\n` as a
  hand-written scanner. Because `.` matches anything but a line feed, the
  pattern matches at a position exactly when the marker is followed by a
  non-empty maximal run of complete, non-empty lines that is closed by an
  empty line; the scanner tries positions left to right and returns the run
  (capture group 1), or the `Regex didn't match` error.
- `Normalize` — the two `str_replace` calls: delete every space, delete
  the occurrences of `/drone/src/github.com/nextcloud/server/` found by a
  left-to-right scan (an occurrence overlapping one already deleted is not
  one), then rewrite each line feed as a line feed and two tabs.
- `StateCounts` — the `$counts` array: an ordered PHP array with the keys
  `success`, `failure`, `cancelled` preset to 0; an unknown state is
  appended with count 1.
- `Triage` — the walk over procs and steps. A `success` proc is passed over
  without looking at its steps; in any other proc, `success` steps are
  skipped, `cancelled` steps are reported but their logs are not requested,
  and every other step has its log requested; then an `acceptance…` step has
  its failed scenarios extracted, and any other step ends the run with the
  `Missing extraction` exception. Only `success` and `cancelled` steps are
  exempt from the log request: a `skipped`, `killed` or `pending` step has
  its log requested and, unless it is an acceptance step, ends the run with
  `Missing extraction`; the model follows the code in this. What the script
  prints becomes a list of `Event`s; the three exceptions thrown after the
  build is fetched become the `Error` of the run, which stops the walk where
  it is thrown.

The HTTP requests are replaced by a store of already fetched log entries
keyed by step pid (`LogStore`); a pid missing from the store stands for a
failed log request: either the HTTP client throws its own exception for a
4xx/5xx answer at process.php:57 (its default), or it lets through another
non-200 answer and process.php:59-60 throws `Non-200 status code for logs`.
Both stop the walk at the same point and are one error, `LogRequestFailed`.

## Model

| member | source | states |
|---|---|---|
| `Text.IndexFromSpec` | process.php:72 | the line scan stops at the first line feed from its start, or at the end of the text |
| `Logs.FullLog` | process.php:65-69 | the raw log is as long as all `out` fields together |
| `Logs.FullLogAppend` | process.php:65-69 | the log of two runs of entries is the log of the first followed by the log of the second |
| `Logs.FullLogSplit` | process.php:65-69 | an entry between two runs of entries contributes its `out` between the logs of those runs |
| `Logs.FullLogEntry` | process.php:65-69 | entry i's `out` sits in the log exactly between the text of the entries before it and the text of the entries after it |
| `Logs.FullLogConcat` | process.php:65-69 | the log built by appending at the end equals the in-order concatenation of the `out` fields |
| `Logs.AssembleLog` | process.php:65-69 | the `.=` loop over the entries builds exactly the concatenated log, whose length is the sum of the `out` lengths |
| `ProcName.GetProcName` | process.php:99-105 | the label is empty exactly for an empty environment; one entry renders as `key=value` with no separator; with more, the first entry comes first followed by `", "` |
| `ProcName.GetProcNameCons` | process.php:99-105 | a label of several entries is the first entry, `", "`, then the label of the remaining entries, in array order |
| `ProcName.ParseGetProcName` | process.php:99-105 | reading the label back gives the environment, every entry in array order, when keys hold no `=` and values no `,` |
| `Scenarios.RunEnd` | process.php:72 | the run of lines after a position is a sequence of complete non-empty lines and stops only at an empty line, the end of the log, or an unterminated last line |
| `Scenarios.RunEndOfLines` | process.php:72 | any run of complete non-empty lines closed by an empty line is exactly the run the scanner finds |
| `Scenarios.QualifiesIff` | process.php:72 | the scanner accepts a position exactly when the pattern matches there |
| `Scenarios.BlockUnique` | process.php:72-75 | at one position the pattern matches in only one way |
| `Scenarios.BlockMaximal` | process.php:72-75 | the captured run cannot be extended by further lines |
| `Scenarios.Search` | process.php:72 | positions are tried left to right and the first where the pattern matches is returned; none is returned only when no later position matches |
| `Scenarios.Capture` | process.php:72-75 | where the pattern matches, group 1 is the scanner's run of lines, with the marker right before it and an empty line right after it |
| `Scenarios.FailedScenarios` | process.php:72-75 | on success the block is one or more complete non-empty lines, found right after the leftmost marker whose lines are closed by an empty line and followed by that empty line; the error `Regex didn't match` exactly when no position matches |
| `Normalize.DeleteChar` | process.php:76 | the reference deletion of one character leaves no such character, keeps every other character and shortens the text by the number deleted |
| `Normalize.DeleteCharAppend` | process.php:76 | deleting a character from a concatenation deletes it from each half and keeps the halves in order, so the remaining characters keep their order |
| `Normalize.DeleteCharIsDeleteAll` | process.php:76 | `str_replace` with a one-character search string (as for the space) is exactly the reference deletion |
| `Normalize.DeleteCharKeepsCount` | process.php:76 | deleting spaces keeps the number of every other character, line feeds included |
| `Normalize.DeleteAll` | process.php:76 | deleting the checkout root never lengthens the text and adds no character |
| `Normalize.ExplodeJoin` | process.php:76 | the pieces between the deleted occurrences, joined with the search string, give the text back |
| `Normalize.ExplodeConcat` | process.php:76 | the deletion result is exactly those pieces, concatenated |
| `Normalize.ExplodePiecesFree` | process.php:76 | no piece contains the search string, so no occurrence is left inside a piece |
| `Normalize.ExplodeFirst` | process.php:76 | the pieces are cut at the leftmost non-overlapping occurrences: the first piece ends at the first occurrence, a single piece is the whole text, and each later piece ends at the first occurrence after the previous cut |
| `Normalize.SourceRootOverlap` | process.php:76 | an example: on the text `R + R[1..]` (R the checkout root), whose two occurrences (at 0 and one character before the end of the first R) share a `/`, the occurrence at 0 is deleted and `R[1..]` stays |
| `Normalize.DeleteAllKeepsCount` | process.php:76 | deleting a string without line feeds keeps the number of line feeds |
| `Normalize.Indent` | process.php:77 | indentation keeps the number of line feeds, adds two tabs per line feed and nothing else |
| `Normalize.IndentTabs` | process.php:77 | every line feed of the indented text is followed by two tabs |
| `Normalize.DedentIndent` | process.php:77 | removing the two tabs after each line feed gives the text back |
| `Normalize.NormalizeFailures` | process.php:76-77 | the printed list holds no space and as many line feeds as the captured block |
| `Normalize.NormalizeFailuresDedent` | process.php:76-77 | without the added tabs, the printed list is the block with its spaces deleted in order and then the checkout root deleted |
| `StateCounts.Bump` | process.php:39 | incrementing a state raises its counter by one, leaves every other counter alone and raises the total by one |
| `StateCounts.BumpKeys` | process.php:39 | incrementing keeps the existing keys in their places, and appends the state at the end, with count 1, exactly when it was missing |
| `StateCounts.BumpDistinct` | process.php:39 | incrementing keeps the keys distinct |
| `StateCounts.InitialCountsZero` | process.php:32-36 | the preset counters are distinct and all zero |
| `Triage.Extract` | process.php:71-88 | after a log is fetched, only an `acceptance` step reaches extraction; another step throws `Missing extraction`; an acceptance step without a block throws `Regex didn't match`; otherwise its normalised list is printed |
| `Triage.VisitChild` | process.php:46-88 | a `success` step is neither reported nor has its log requested; a `cancelled` step is reported and nothing else; every other step is reported and its log requested, whether or not the request succeeds, and each exception arises exactly in its case |
| `Triage.StepsReached` | process.php:46-89 | the inner loop reaches every step, or stops at the first step whose handling throws |
| `Triage.VisitChildrenReached` | process.php:46-89 | the inner loop finishes exactly when it reaches every step and the last does not throw; otherwise its exception is that of the last step reached |
| `Triage.VisitChildrenOrder` | process.php:46-89 | the inner loop's output is the output of each step reached, in step order |
| `Triage.VisitChildrenReports` | process.php:46-57 | every step reached, the throwing one included, has all its output in the loop's output: its line unless it succeeded, its log request unless it succeeded or was cancelled |
| `Triage.VisitChildrenTrace` | process.php:46-89 | every event of a proc's steps is one that one of those steps can produce |
| `Triage.VisitChildrenError` | process.php:46-89 | the steps are handled up to the first exception: they throw exactly when one of them throws, and then with its exception |
| `Triage.VisitProc` | process.php:41-45 | a `success` proc produces nothing and throws nothing, whatever its steps; another is reported first, with its state and its label |
| `Triage.VisitProcTrace` | process.php:45-89 | after its header, a proc's events are events of its own steps |
| `Triage.VisitProcError` | process.php:41-89 | a proc throws exactly when it is not a success and one of its steps throws, and then with that step's exception |
| `Triage.Visited` | process.php:38-43 | the walk reaches all procs, or stops at the first whose handling throws |
| `Triage.RunFrom` | process.php:38-43 | each proc reached raises exactly one counter, the one of its state, so the total grows by the number of procs reached |
| `Triage.RunFromCompletes` | process.php:38-89 | the walk ends without an exception exactly when no proc throws |
| `Triage.RunFromError` | process.php:38-89 | an exception ends the walk at the proc that threw it; a walk without one reaches every proc |
| `Triage.RunFromTrace` | process.php:38-89 | every event of the walk is a non-success proc's header or an event of one of that proc's steps |
| `Triage.RunFromOrder` | process.php:38-89 | the walk's output is the output of each proc reached, in proc order |
| `Triage.RunFromDistinct` | process.php:38-39 | the walk keeps the counter keys distinct |
| `Triage.PrintStats` | process.php:32-43 | the counters sum to the number of procs reached, which is all of them when nothing is thrown |
| `Triage.PrintStatsCounts` | process.php:32-39 | each final counter equals the number of reached procs in its state |
| `Triage.PrintStatsDistinct` | process.php:32-39 | the final counters have distinct keys |
| `Triage.PrintStatsTrace` | process.php:38-89 | every printed or requested item is accounted for by a non-success proc or one of its steps |
| `Triage.PrintStatsOrder` | process.php:38-89 | the printed output is each reached proc's output in proc order |
| `Triage.PrintStatsContains` | process.php:38-89 | everything a reached proc produces, the throwing proc included, is in the output |
| `Triage.PrintStatsReports` | process.php:41-57 | a reached non-success proc has its header printed, and each of its reached steps that did not succeed is reported and, unless cancelled, has its log requested |
| `Triage.PrintStatsReportsAll` | process.php:38-57 | in a run without an exception, every non-success step of every non-success proc is reported, and every one that is not cancelled has its log requested |
| `Triage.PrintStatsRequests` | process.php:46-57 | logs are requested only for non-success, non-cancelled steps of non-success procs, and scenario lists come only from acceptance steps whose log holds a block |
| `Triage.PrintStatsError` | process.php:57-88 | an exception always comes from a step of a non-success proc whose handling throws it |
| `Triage.PrintStatsCompleted` | process.php:53-88 | a run without an exception means every step that needed its log was an acceptance step whose log was fetched and held a failed-scenario block |

## Left out

- Creating the Guzzle client, the request for the build, its status check and JSON decoding (process.php:3-28): network I/O and library calls; the build's procs are an input.
- The log request and JSON decoding (process.php:57-63): I/O; fetched logs are an input map, and a missing entry stands for a failed request.
- The two ways a log request fails (the HTTP client's exception at process.php:57, the status check at process.php:59-60) are one error, `LogRequestFailed`: they differ only in the exception class and message, not in where the walk stops.
- Scenarios.FailedScenarios: assumes `preg_match` at process.php:72 runs to completion; its return value is ignored, so if PCRE hit its backtracking or JIT stack limit, `$matches` would be empty and process.php:84 would throw `Regex didn't match` even for a log that holds a block, which the model does not cover.
- Printing (process.php:30, 45, 51, 78): the exact output lines are not modelled; the printed data are the fields of `Event`s.
- The `explode`/`list` diagnostics before `Regex didn't match` (process.php:81-83): they only print part of the log; only the exception is modelled.
- The commented-out printout of the counters (process.php:92-96): it is dead code; the counters are modelled but never printed.
- A general PCRE engine: only the one pattern is modelled, as a scanner.
- Byte strings: PHP strings are bytes and the model uses characters; the pattern has no `u` modifier, so `.` excludes only the line feed in both readings.
- Integer keys of the environment array: keys are modelled as their string rendering, as string interpolation prints them.
- Extraction for any step kind other than `acceptance…`: process.php:71-88 has none, so every other failing step throws `Missing extraction`, and the model adds no other rule. Likewise only `success` and `cancelled` steps are exempt from the log request (process.php:47-55, `NeedsLog`); no other state is treated specially.
- ProcName.ParseGetProcName: the round trip is stated only for environments whose keys hold no `=` and whose values hold no `,`; other labels are ambiguous.

=== FILE: counts.dfy ===
/** The `$counts` array of `printStats`: one counter per proc state, in the
    order PHP keeps array keys (the three preset ones, then others as first seen). */
module StateCounts {

  type Counts = seq<(string, nat)>

  /** The array as the script initialises it. */
  const InitialCounts: Counts := [("success", 0), ("failure", 0), ("cancelled", 0)]

  /** `$counts[$state]`, with a missing key read as 0. */
  function CountOf(c: Counts, state: string): nat {
    if |c| == 0 then 0
    else if c[0].0 == state then c[0].1
    else CountOf(c[1..], state)
  }

  /** The sum of all counters. */
  function Total(c: Counts): nat {
    if |c| == 0 then 0 else c[0].1 + Total(c[1..])
  }

  /** Every key appears once. */
  predicate DistinctKeys(c: Counts) {
    forall i, j :: 0 <= i < j < |c| ==> c[i].0 != c[j].0
  }

  /** `$counts[$state]++`: a missing key is appended with value 1 (null counts as 0). */
  function Bump(c: Counts, state: string): (r: Counts)
    ensures CountOf(r, state) == CountOf(c, state) + 1
    ensures forall other :: other != state ==> CountOf(r, other) == CountOf(c, other)
    ensures Total(r) == Total(c) + 1
  {
    if |c| == 0 then [(state, 1)]
    else if c[0].0 == state then [(state, c[0].1 + 1)] + c[1..]
    else
      var rest := Bump(c[1..], state);
      var r := [c[0]] + rest;
      assert r[1..] == rest;
      r
  }

  /** The keys after an increment: the old ones in their places, and the new
      state at the end when it was missing. */
  lemma {:induction false} BumpKeys(c: Counts, state: string)
    ensures var r := Bump(c, state);
      && |c| <= |r|
      && (forall i :: 0 <= i < |c| ==> r[i].0 == c[i].0)
      && (if exists i :: 0 <= i < |c| && c[i].0 == state then |r| == |c| else |r| == |c| + 1 && r[|c|] == (state, 1))
  {
    if |c| > 0 && c[0].0 != state {
      var rest := Bump(c[1..], state);
      BumpKeys(c[1..], state);
      assert Bump(c, state) == [c[0]] + rest;
      assert (exists i :: 0 <= i < |c| && c[i].0 == state) <==> (exists i :: 0 <= i < |c[1..]| && c[1..][i].0 == state) by {
        if exists i :: 0 <= i < |c| && c[i].0 == state {
          var i :| 0 <= i < |c| && c[i].0 == state;
          assert c[1..][i - 1].0 == state;
        }
        if exists i :: 0 <= i < |c[1..]| && c[1..][i].0 == state {
          var i :| 0 <= i < |c[1..]| && c[1..][i].0 == state;
          assert c[i + 1].0 == state;
        }
      }
    }
  }

  /** An increment keeps the keys distinct. */
  lemma BumpDistinct(c: Counts, state: string)
    requires DistinctKeys(c)
    ensures DistinctKeys(Bump(c, state))
  {
    var r := Bump(c, state);
    BumpKeys(c, state);
    forall i, j | 0 <= i < j < |r| ensures r[i].0 != r[j].0 {
      if j == |c| {
        assert r[j].0 == state;
        assert c[i].0 != state;
      }
    }
  }

  /** The preset array holds three distinct keys, all at zero. */
  lemma InitialCountsZero()
    ensures Total(InitialCounts) == 0
    ensures DistinctKeys(InitialCounts)
    ensures forall state :: CountOf(InitialCounts, state) == 0
  {
    var c := InitialCounts;
    var c1 := c[1..];
    var c2 := c1[1..];
    assert c1 == [("failure", 0), ("cancelled", 0)];
    assert c2 == [("cancelled", 0)];
    forall state ensures CountOf(c, state) == 0 {
      assert CountOf(c2[1..], state) == 0;
      assert CountOf(c2, state) == 0;
      assert CountOf(c1, state) == 0;
    }
  }
}

=== FILE: logs.dfy ===
/** Assembly of a step's raw log from the entries the server returns. */
module Logs {
  import opened Text

  /** One entry of a step's log; `out` is the only field the script reads. */
  datatype LogLine = LogLine(out: string)

  /** Sum of the lengths of the entries' `out` fields. */
  function TotalLength(entries: seq<LogLine>): nat {
    if |entries| == 0 then 0
    else TotalLength(entries[..|entries| - 1]) + |entries[|entries| - 1].out|
  }

  /** The raw log: every entry's `out` appended in order. */
  function FullLog(entries: seq<LogLine>): (r: string)
    ensures |r| == TotalLength(entries)
  {
    if |entries| == 0 then ""
    else FullLog(entries[..|entries| - 1]) + entries[|entries| - 1].out
  }

  /** The log of two runs of entries is the log of the first, then that of the second. */
  lemma {:induction false} FullLogAppend(a: seq<LogLine>, b: seq<LogLine>)
    ensures FullLog(a + b) == FullLog(a) + FullLog(b)
    decreases |b|
  {
    if |b| == 0 {
      assert a + b == a;
    } else {
      var ab := a + b;
      var init := b[..|b| - 1];
      var last := b[|b| - 1];
      assert ab[..|ab| - 1] == a + init;
      assert ab[|ab| - 1] == last;
      assert FullLog(ab) == FullLog(a + init) + last.out;
      FullLogAppend(a, init);
      assert FullLog(b) == FullLog(init) + last.out;
    }
  }

  lemma FullLogSingle(x: LogLine)
    ensures FullLog([x]) == x.out
  {
    assert [x][..0] == [];
  }

  /** Entry `i`'s text sits in the log between the text of the entries before it
      and the text of the entries after it. */
  lemma {:induction false} FullLogEntry(entries: seq<LogLine>, i: nat)
    requires i < |entries|
    ensures FullLog(entries) == FullLog(entries[..i]) + entries[i].out + FullLog(entries[i + 1..])
  {
    assert entries == entries[..i] + [entries[i]] + entries[i + 1..];
    FullLogSplit(entries[..i], entries[i], entries[i + 1..]);
  }

  lemma {:induction false} FullLogSplit(before: seq<LogLine>, x: LogLine, after: seq<LogLine>)
    ensures FullLog(before + [x] + after) == FullLog(before) + x.out + FullLog(after)
  {
    FullLogSingle(x);
    FullLogAppend(before, [x]);
    FullLogAppend(before + [x], after);
  }

  /** The `out` fields of the entries, in order. */
  function Outs(entries: seq<LogLine>): (outs: seq<string>)
    ensures |outs| == |entries|
    ensures forall i :: 0 <= i < |entries| ==> outs[i] == entries[i].out
  {
    seq(|entries|, i requires 0 <= i < |entries| => entries[i].out)
  }

  /** The log is `implode('', …)` of the `out` fields: built at the end, as the
      loop does, it equals the concatenation built from the front. */
  lemma {:induction false} FullLogConcat(entries: seq<LogLine>)
    ensures FullLog(entries) == Concat(Outs(entries))
    decreases |entries|
  {
    if |entries| > 0 {
      var init := entries[..|entries| - 1];
      var last := entries[|entries| - 1];
      FullLogConcat(init);
      assert Outs(entries) == Outs(init) + [last.out];
      ConcatAppend(Outs(init), [last.out]);
      assert Concat([last.out]) == last.out + Concat<char>([]);
    }
  }

  /** The loop of the script: `$fullLog .= $log['out']` over the entries. */
  method AssembleLog(entries: seq<LogLine>) returns (full: string)
    ensures full == FullLog(entries)
    ensures |full| == TotalLength(entries)
  {
    full := "";
    var i := 0;
    while i < |entries|
      invariant i <= |entries|
      invariant full == FullLog(entries[..i])
    {
      assert entries[..i + 1][..i] == entries[..i];
      full := full + entries[i].out;
      i := i + 1;
    }
    assert entries[..i] == entries;
  }
}

=== FILE: normalize.dfy ===
/** The two `str_replace` calls that turn the captured block into the printed list:
    spaces and the checkout root are deleted, then every line break is indented. */
module Normalize {
  import opened Text

  /** The directory the CI checks the repository out into. */
  const SourceRoot: string := "/drone/src/github.com/nextcloud/server/"

  /** Reference definition of deleting one character: every character of `s`
      other than `c`, in order. */
  function DeleteChar(s: string, c: char): (r: string)
    ensures c !in r
    ensures forall x :: x in r <==> x in s && x != c
    ensures |r| == |s| - Count(s, c)
  {
    if |s| == 0 then ""
    else
      var rest := DeleteChar(s[1..], c);
      assert s == [s[0]] + s[1..];
      (if s[0] == c then "" else [s[0]]) + rest
  }

  /** Deleting one character leaves the count of every other character alone. */
  lemma {:induction false} DeleteCharKeepsCount(s: string, c: char, d: char)
    requires c != d
    ensures Count(DeleteChar(s, c), d) == Count(s, d)
  {
    if |s| > 0 {
      DeleteCharKeepsCount(s[1..], c, d);
      CountAppend(if s[0] == c then "" else [s[0]], DeleteChar(s[1..], c), d);
    }
  }

  /** `str_replace($pat, '', $s)`: the subject is scanned left to right and each
      occurrence found is dropped; the text after it is scanned afresh. */
  function DeleteAll(s: string, pat: string): (r: string)
    ensures |r| <= |s|
    ensures forall x :: x in r ==> x in s
    decreases |s|
  {
    if |pat| > 0 && StartsWith(s, pat) then
      var rest := DeleteAll(s[|pat|..], pat);
      assert forall x :: x in s[|pat|..] ==> x in s;
      rest
    else if |s| == 0 then ""
    else
      var rest := DeleteAll(s[1..], pat);
      assert s == [s[0]] + s[1..];
      [s[0]] + rest
  }

  /** Deleting a character from a concatenation deletes it from each half, in place. */
  lemma {:induction false} DeleteCharAppend(a: string, b: string, c: char)
    ensures DeleteChar(a + b, c) == DeleteChar(a, c) + DeleteChar(b, c)
    decreases |a|
  {
    if |a| == 0 {
      assert a + b == b;
    } else {
      assert (a + b)[0] == a[0];
      assert (a + b)[1..] == a[1..] + b;
      DeleteCharAppend(a[1..], b, c);
    }
  }

  /** `str_replace` with a one-character search string is the reference deletion. */
  lemma {:induction false} DeleteCharIsDeleteAll(s: string, c: char)
    ensures DeleteAll(s, [c]) == DeleteChar(s, c)
    decreases |s|
  {
    if |s| > 0 {
      assert s[..1] == [s[0]];
      assert StartsWith(s, [c]) <==> s[0] == c;
      DeleteCharIsDeleteAll(s[1..], c);
    }
  }

  /** `explode($pat, $s)`: the pieces between the occurrences `DeleteAll` drops. */
  function Explode(s: string, pat: string): (parts: seq<string>)
    requires |pat| > 0
    ensures |parts| >= 1
    decreases |s|
  {
    if StartsWith(s, pat) then [""] + Explode(s[|pat|..], pat)
    else if |s| == 0 then [""]
    else
      var rest := Explode(s[1..], pat);
      [[s[0]] + rest[0]] + rest[1..]
  }

  /** Putting the occurrences back between the pieces gives the subject again. */
  lemma {:induction false} ExplodeJoin(s: string, pat: string)
    requires |pat| > 0
    ensures Join(pat, Explode(s, pat)) == s
    decreases |s|
  {
    if StartsWith(s, pat) {
      var rest := Explode(s[|pat|..], pat);
      ExplodeJoin(s[|pat|..], pat);
      assert ([""] + rest)[1..] == rest;
      assert s == s[..|pat|] + s[|pat|..];
    } else if |s| > 0 {
      var rest := Explode(s[1..], pat);
      ExplodeJoin(s[1..], pat);
      JoinExtendHead(pat, [s[0]], rest);
      assert s == [s[0]] + s[1..];
    }
  }

  /** No occurrence of the search string starts inside the first piece. */
  lemma {:induction false} ExplodeFirstFree(s: string, pat: string)
    requires |pat| > 0
    ensures forall i: nat :: i < |Explode(s, pat)[0]| ==> !OccursAt(s, pat, i)
    decreases |s|
  {
    if !StartsWith(s, pat) && |s| > 0 {
      var rest := Explode(s[1..], pat);
      ExplodeFirstFree(s[1..], pat);
      assert Explode(s, pat)[0] == [s[0]] + rest[0];
      forall i: nat | i < 1 + |rest[0]| ensures !OccursAt(s, pat, i) {
        if i > 0 {
          OccursAtTail(s, pat, i);
        }
      }
    }
  }

  /** A text cut into a single piece holds no occurrence: the piece is the text. */
  lemma {:induction false} ExplodeSingle(s: string, pat: string)
    requires |pat| > 0 && |Explode(s, pat)| == 1
    ensures Explode(s, pat)[0] == s
    decreases |s|
  {
    if !StartsWith(s, pat) && |s| > 0 {
      ExplodeSingle(s[1..], pat);
      assert s == [s[0]] + s[1..];
    }
  }

  /** With more than one piece, the first is followed by an occurrence, and the
      other pieces are those of the text after it. */
  lemma {:induction false} ExplodeCut(s: string, pat: string)
    requires |pat| > 0 && |Explode(s, pat)| > 1
    ensures |Explode(s, pat)[0]| + |pat| <= |s|
    ensures OccursAt(s, pat, |Explode(s, pat)[0]|)
    ensures Explode(s, pat)[1..] == Explode(s[|Explode(s, pat)[0]| + |pat|..], pat)
    decreases |s|
  {
    if !StartsWith(s, pat) {
      var rest := Explode(s[1..], pat);
      var k := |rest[0]|;
      ExplodeCut(s[1..], pat);
      assert |Explode(s, pat)[0]| == k + 1;
      OccursAtTail(s, pat, k + 1);
      assert s[1..][k + |pat|..] == s[k + 1 + |pat|..];
    }
  }

  /** The pieces are cut at the leftmost non-overlapping occurrences: the first
      piece ends at the first occurrence, and each later piece ends at the first
      occurrence after the previous cut. */
  lemma {:induction false} ExplodeFirst(s: string, pat: string)
    requires |pat| > 0
    ensures forall i: nat :: i < |Explode(s, pat)[0]| ==> !OccursAt(s, pat, i)
    ensures |Explode(s, pat)| == 1 ==> Explode(s, pat)[0] == s
    ensures |Explode(s, pat)| > 1 ==>
      var first := |Explode(s, pat)[0]|;
      OccursAt(s, pat, first) && Explode(s, pat)[1..] == Explode(s[first + |pat|..], pat)
  {
    ExplodeFirstFree(s, pat);
    if |Explode(s, pat)| == 1 {
      ExplodeSingle(s, pat);
    } else {
      ExplodeCut(s, pat);
    }
  }

  /** An example of the left-to-right scan: in the text `R + R[1..]`, where `R`
      is the checkout root, occurrences start at 0 and at |R| - 1 and share a
      `/`; the one at 0 is deleted and `R[1..]` stays. */
  lemma SourceRootOverlap()
    ensures DeleteAll(SourceRoot + SourceRoot[1..], SourceRoot) == SourceRoot[1..]
  {
    var s := SourceRoot + SourceRoot[1..];
    assert StartsWith(s, SourceRoot);
    assert s[|SourceRoot|..] == SourceRoot[1..];
    DeleteAllAbsent(SourceRoot[1..], SourceRoot);
  }

  /** A text shorter than the search string is left as it is. */
  lemma {:induction false} DeleteAllAbsent(s: string, pat: string)
    requires |s| < |pat|
    ensures DeleteAll(s, pat) == s
    decreases |s|
  {
    if |s| > 0 {
      DeleteAllAbsent(s[1..], pat);
      assert s == [s[0]] + s[1..];
    }
  }

  /** Deleting every occurrence leaves exactly the pieces, concatenated. */
  lemma {:induction false} ExplodeConcat(s: string, pat: string)
    requires |pat| > 0
    ensures Concat(Explode(s, pat)) == DeleteAll(s, pat)
    decreases |s|
  {
    if StartsWith(s, pat) {
      var rest := Explode(s[|pat|..], pat);
      ExplodeConcat(s[|pat|..], pat);
      assert ([""] + rest)[1..] == rest;
    } else if |s| > 0 {
      var rest := Explode(s[1..], pat);
      ExplodeConcat(s[1..], pat);
      ConcatExtendHead([s[0]], rest);
    }
  }

  /** No piece contains the search string: every occurrence present was found. */
  lemma {:induction false} ExplodePiecesFree(s: string, pat: string)
    requires |pat| > 0
    ensures forall k :: 0 <= k < |Explode(s, pat)| ==> !Contains(Explode(s, pat)[k], pat)
    decreases |s|
  {
    var parts := Explode(s, pat);
    if StartsWith(s, pat) {
      var rest := Explode(s[|pat|..], pat);
      ExplodePiecesFree(s[|pat|..], pat);
      assert parts[1..] == rest;
      forall k | 0 <= k < |parts| ensures !Contains(parts[k], pat) {
        if k > 0 {
          assert parts[k] == rest[k - 1];
        }
      }
    } else if |s| > 0 {
      var rest := Explode(s[1..], pat);
      ExplodePiecesFree(s[1..], pat);
      ExplodeJoin(s, pat);
      JoinHead(pat, parts);
      assert parts[0] == [s[0]] + rest[0];
      forall i: nat ensures !OccursAt(parts[0], pat, i) {
        if i == 0 {
          if |pat| <= |parts[0]| {
            assert parts[0][..|pat|] == s[..|pat|];
          }
        } else if i + |pat| <= |parts[0]| {
          assert parts[0][i..i + |pat|] == rest[0][i - 1..i - 1 + |pat|];
          assert !OccursAt(rest[0], pat, i - 1);
        }
      }
      forall k | 0 < k < |parts| ensures !Contains(parts[k], pat) {
        assert parts[k] == rest[k];
      }
    }
  }

  /** Deleting a string without `c` in it leaves the count of `c` alone. */
  lemma {:induction false} DeleteAllKeepsCount(s: string, pat: string, c: char)
    requires c !in pat
    ensures Count(DeleteAll(s, pat), c) == Count(s, c)
    decreases |s|
  {
    if |pat| > 0 && StartsWith(s, pat) {
      DeleteAllKeepsCount(s[|pat|..], pat, c);
      assert s == pat + s[|pat|..];
      CountAppend(pat, s[|pat|..], c);
      CountZero(pat, c);
    } else if |s| > 0 {
      DeleteAllKeepsCount(s[1..], pat, c);
      CountAppend([s[0]], DeleteAll(s[1..], pat), c);
      CountAppend([s[0]], s[1..], c);
      assert s == [s[0]] + s[1..];
    }
  }

  /** `str_replace("\n", "\n\t\t", $s)`. */
  function Indent(s: string): (r: string)
    ensures |r| == |s| + 2 * Count(s, '\n')
    ensures Count(r, '\n') == Count(s, '\n')
    ensures Count(r, '\t') == Count(s, '\t') + 2 * Count(s, '\n')
    ensures forall x :: x in r ==> x in s || x == '\t'
  {
    if |s| == 0 then ""
    else
      var head := if s[0] == '\n' then "\n\t\t" else [s[0]];
      var rest := Indent(s[1..]);
      CountAppend(head, rest, '\n');
      CountAppend(head, rest, '\t');
      CountAppend([s[0]], s[1..], '\n');
      CountAppend([s[0]], s[1..], '\t');
      assert s == [s[0]] + s[1..];
      head + rest
  }

  /** Every line break of the indented text is followed by exactly the two added tabs. */
  lemma {:induction false} IndentTabs(s: string, j: nat)
    requires j < |Indent(s)| && Indent(s)[j] == '\n'
    ensures j + 2 < |Indent(s)| && Indent(s)[j + 1] == '\t' && Indent(s)[j + 2] == '\t'
  {
    var head := if s[0] == '\n' then "\n\t\t" else [s[0]];
    var rest := Indent(s[1..]);
    assert Indent(s) == head + rest;
    if j >= |head| {
      IndentTabs(s[1..], j - |head|);
    }
  }

  /** Undoes `Indent`: two tabs after a line break are dropped. */
  function Dedent(s: string): string {
    if |s| == 0 then ""
    else if StartsWith(s, "\n\t\t") then "\n" + Dedent(s[3..])
    else [s[0]] + Dedent(s[1..])
  }

  /** Indentation loses nothing: removing the added tabs gives the text back. */
  lemma {:induction false} DedentIndent(s: string)
    ensures Dedent(Indent(s)) == s
  {
    if |s| > 0 {
      var head := if s[0] == '\n' then "\n\t\t" else [s[0]];
      var rest := Indent(s[1..]);
      var r := head + rest;
      assert Indent(s) == r;
      DedentIndent(s[1..]);
      if s[0] == '\n' {
        assert r[..3] == "\n\t\t";
        assert r[3..] == rest;
        assert Dedent(r) == "\n" + Dedent(rest);
      } else {
        assert r[0] != '\n';
        assert r[1..] == rest;
        assert Dedent(r) == [s[0]] + Dedent(rest);
      }
      assert s == [s[0]] + s[1..];
    }
  }

  /** The printed scenario list: spaces out, checkout root out, lines indented.
      The array form of `str_replace` deletes each search string in turn. */
  function NormalizeFailures(block: string): (r: string)
    ensures ' ' !in r
    ensures Count(r, '\n') == Count(block, '\n')
    ensures |r| <= |block| + 2 * Count(block, '\n')
  {
    var compact := DeleteAll(block, " ");
    var stripped := DeleteAll(compact, SourceRoot);
    DeleteCharIsDeleteAll(block, ' ');
    DeleteCharKeepsCount(block, ' ', '\n');
    assert '\n' !in SourceRoot;
    DeleteAllKeepsCount(compact, SourceRoot, '\n');
    Indent(stripped)
  }

  /** Without its indentation, the printed list is the captured block with every
      space deleted, in order, and then every checkout-root occurrence deleted. */
  lemma {:induction false} NormalizeFailuresDedent(block: string)
    ensures Dedent(NormalizeFailures(block)) == DeleteAll(DeleteChar(block, ' '), SourceRoot)
  {
    DeleteCharIsDeleteAll(block, ' ');
    DedentIndent(DeleteAll(DeleteAll(block, " "), SourceRoot));
  }
}

=== FILE: procname.dfy ===
/** `getProcName`: the one-line label printed for a failing proc. */
module ProcName {
  import opened Text
  import opened Results

  /** A proc's `environ`: an ordered PHP array, its keys and values as strings. */
  type Environ = seq<(string, string)>

  /** The rendering of one array element: `"$index=$value"`. */
  function Entry(key: string, value: string): string {
    key + "=" + value
  }

  /** `array_map` over the keys and values of the environment, in array order. */
  function Entries(env: Environ): seq<string> {
    seq(|env|, i requires 0 <= i < |env| => Entry(env[i].0, env[i].1))
  }

  /** The proc's label: every entry as `key=value`, joined by `", "`. */
  function GetProcName(env: Environ): (r: string)
    ensures r == "" <==> |env| == 0
    ensures |env| == 1 ==> r == env[0].0 + "=" + env[0].1
    ensures |env| > 1 ==> StartsWith(r, env[0].0 + "=" + env[0].1 + ", ")
  {
    var parts := Entries(env);
    assert |env| > 0 ==> parts[0] == env[0].0 + "=" + env[0].1;
    Join(", ", parts)
  }

  /** Labels whose keys hold no `=` and whose values hold no `,` can be read back. */
  predicate Unambiguous(env: Environ) {
    forall i :: 0 <= i < |env| ==> '=' !in env[i].0 && ',' !in env[i].1
  }

  /** Reads a label back into its environment; `None` when it is not one. */
  function ParseProcName(s: string): Option<Environ> {
    if s == "" then Some([]) else ParseEntries(s)
  }

  function ParseEntries(s: string): Option<Environ>
    decreases |s|
  {
    var eq := IndexFrom(s, '=', 0);
    if eq == |s| then None
    else
      var comma := IndexFrom(s, ',', eq + 1);
      if comma == |s| then Some([(s[..eq], s[eq + 1..])])
      else if comma + 1 < |s| && s[comma + 1] == ' ' then
        Prepend((s[..eq], s[eq + 1..comma]), ParseEntries(s[comma + 2..]))
      else None
  }

  function Prepend(entry: (string, string), rest: Option<Environ>): Option<Environ> {
    match rest
    case None => None
    case Some(env) => Some([entry] + env)
  }

  /** Every entry comes back, in order: the label loses nothing. */
  lemma {:induction false} ParseGetProcName(env: Environ)
    requires Unambiguous(env)
    ensures ParseProcName(GetProcName(env)) == Some(env)
  {
    if |env| > 0 {
      ParseEntriesJoin(env);
    }
  }

  /** A label with more than one entry is its first entry, `", "`, and the label of the rest. */
  lemma GetProcNameCons(env: Environ)
    requires |env| > 1
    ensures GetProcName(env) == Entry(env[0].0, env[0].1) + ", " + GetProcName(env[1..])
  {
    assert Entries(env)[1..] == Entries(env[1..]);
  }

  /** The parser reads the key up to the first `=`. */
  lemma KeyField(k: string, v: string, tail: string, s: string)
    requires '=' !in k
    requires s == k + "=" + v + tail
    ensures IndexFrom(s, '=', 0) == |k|
    ensures s[..|k|] == k
  {
    forall j | 0 <= j < |k| ensures s[j] != '=' {
      assert s[j] == k[j];
    }
    assert s[|k|] == '=';
    IndexFromIs(s, '=', 0, |k|);
  }

  /** The parser reads the value up to the next `,`, which starts the tail. */
  lemma ValueField(k: string, v: string, tail: string, s: string)
    requires ',' !in v
    requires s == k + "=" + v + tail
    requires tail == "" || tail[0] == ','
    ensures IndexFrom(s, ',', |k| + 1) == |k| + 1 + |v|
    ensures s[|k| + 1..|k| + 1 + |v|] == v
    ensures s[|k| + 1 + |v|..] == tail
  {
    forall j | |k| + 1 <= j < |k| + 1 + |v| ensures s[j] != ',' {
      assert s[j] == v[j - |k| - 1];
    }
    IndexFromIs(s, ',', |k| + 1, |k| + 1 + |v|);
  }

  /** One unfolding of the parser, for a label that goes on after a `", "`. */
  lemma ParseEntriesUnfold(s: string, eq: nat, comma: nat)
    requires eq < |s| && IndexFrom(s, '=', 0) == eq
    requires eq + 1 <= comma && IndexFrom(s, ',', eq + 1) == comma
    requires comma + 1 < |s| && s[comma + 1] == ' '
    ensures ParseEntries(s) == Prepend((s[..eq], s[eq + 1..comma]), ParseEntries(s[comma + 2..]))
  {
    assert comma != |s|;
    var rest := ParseEntries(s[comma + 2..]);
    assert ParseEntries(s) == Prepend((s[..eq], s[eq + 1..comma]), rest);
  }

  /** The last entry of a label parses on its own. */
  lemma ParseEntriesLast(k: string, v: string)
    requires '=' !in k && ',' !in v
    ensures ParseEntries(k + "=" + v) == Some([(k, v)])
  {
    var s := k + "=" + v;
    assert s == k + "=" + v + "";
    KeyField(k, v, "", s);
    ValueField(k, v, "", s);
  }

  /** An entry followed by `", "` parses, then the parser goes on with the rest. */
  lemma ParseEntriesNext(k: string, v: string, tail: string)
    requires '=' !in k && ',' !in v
    ensures ParseEntries(k + "=" + v + ", " + tail) == Prepend((k, v), ParseEntries(tail))
  {
    var s := k + "=" + v + ", " + tail;
    var t := ", " + tail;
    assert s == k + "=" + v + t;
    KeyField(k, v, t, s);
    ValueField(k, v, t, s);
    var comma := |k| + 1 + |v|;
    assert s[comma..] == t;
    assert s[comma + 1] == ' ';
    assert s[comma + 2..] == tail;
    ParseEntriesUnfold(s, |k|, comma);
  }

  lemma {:induction false} ParseEntriesJoin(env: Environ)
    requires |env| > 0 && Unambiguous(env)
    ensures ParseEntries(GetProcName(env)) == Some(env)
    decreases |env|
  {
    var k, v := env[0].0, env[0].1;
    if |env| == 1 {
      ParseEntriesLast(k, v);
      assert env == [(k, v)];
    } else {
      GetProcNameCons(env);
      ParseEntriesJoin(env[1..]);
      ParseEntriesNext(k, v, GetProcName(env[1..]));
      assert env == [(k, v)] + env[1..];
    }
  }
}

=== FILE: results.dfy ===
/** Option and Result types, and the exceptions the report script throws. */
module Results {

  datatype Option<T> = None | Some(value: T)

  /** The exceptions `printStats` throws once the build itself has been fetched. */
  datatype Error =
    | LogRequestFailed   // a step's log request failed: the HTTP client's own exception
                         // for a 4xx/5xx answer, or "Non-200 status code for logs"
    | RegexDidntMatch    // "Regex didn't match": an acceptance step's log holds no block
    | MissingExtraction  // "Missing extraction": a failing step with no extraction rule

  datatype Result<T> = Ok(value: T) | Err(error: Error)
}

=== FILE: scenarios.dfy ===
/** The failed-scenario block of an acceptance step's log.
    The script matches `--- Failed scenarios:\n\n(((.+)\n)+)\n` and keeps group 1.
    Because `.` matches anything but '\n', each `(.+)\n` is forced to take a whole
    line, so the pattern succeeds at a position exactly when the longest run of
    complete, non-empty lines after the marker is non-empty and is followed by an
    empty line; backtracking to fewer lines never helps. The scanner below finds
    that run directly and tries positions left to right, as the regex engine does. */
module Scenarios {
  import opened Text
  import opened Results

  /** The literal text the pattern anchors on: the header line and the blank line after it. */
  const Marker: string := "--- Failed scenarios:\n\n"

  /** `s[p..q]` is one or more complete lines, each non-empty and ended by '\n'. */
  predicate LinesBetween(s: string, p: nat, q: nat) {
    && p < q <= |s|
    && s[p] != '\n'
    && s[q - 1] == '\n'
    && forall j :: p < j < q && s[j] == '\n' ==> s[j - 1] != '\n'
  }

  /** `b` is one or more complete lines, each non-empty and ended by '\n'. */
  predicate IsLines(b: string) {
    LinesBetween(b, 0, |b|)
  }

  /** End of the longest run of complete, non-empty lines that starts at `p`. */
  function RunEnd(s: string, p: nat): (q: nat)
    requires p <= |s|
    ensures p <= q <= |s|
    ensures q == p || LinesBetween(s, p, q)
    ensures q == |s| || s[q] == '\n' || IndexFrom(s, '\n', q) == |s|
    decreases |s| - p
  {
    var e := IndexFrom(s, '\n', p);
    IndexFromSpec(s, '\n', p);
    if p < e < |s| then RunEnd(s, e + 1) else p
  }

  /** The scanner's test at position `i`: the marker, then a run closed by an empty line. */
  predicate Qualifies(s: string, i: nat) {
    && OccursAt(s, Marker, i)
    && var p := i + |Marker|;
       var q := RunEnd(s, p);
       p < q < |s| && s[q] == '\n'
  }

  /** The pattern, read declaratively: the marker at `i`, lines up to `q`, an empty line at `q`. */
  ghost predicate BlockAt(s: string, i: nat, q: nat) {
    && OccursAt(s, Marker, i)
    && LinesBetween(s, i + |Marker|, q)
    && q < |s| && s[q] == '\n'
  }

  /** The pattern matches at position `i`. */
  ghost predicate HasBlock(s: string, i: nat) {
    exists q: nat :: BlockAt(s, i, q)
  }

  /** `i` is the leftmost position where the pattern matches. */
  ghost predicate Leftmost(s: string, i: nat) {
    HasBlock(s, i) && forall k: nat :: k < i ==> !HasBlock(s, k)
  }

  /** A run of lines closed by an empty line is exactly the run the scanner finds. */
  lemma {:induction false} RunEndOfLines(s: string, p: nat, q: nat)
    requires LinesBetween(s, p, q) && q < |s| && s[q] == '\n'
    ensures RunEnd(s, p) == q
    decreases q - p
  {
    var e := IndexFrom(s, '\n', p);
    IndexFromSpec(s, '\n', p);
    assert p < e <= q - 1;
    if e + 1 < q {
      assert s[e + 1] != '\n';
      RunEndOfLines(s, e + 1, q);
    } else {
      assert RunEnd(s, q) == q;
    }
  }

  /** The scanner's test agrees with the declarative reading of the pattern. */
  lemma QualifiesIff(s: string, i: nat)
    ensures Qualifies(s, i) <==> HasBlock(s, i)
  {
    if Qualifies(s, i) {
      assert BlockAt(s, i, RunEnd(s, i + |Marker|));
    }
    if HasBlock(s, i) {
      var q: nat :| BlockAt(s, i, q);
      RunEndOfLines(s, i + |Marker|, q);
    }
  }

  /** At one position the pattern can match in only one way. */
  lemma BlockUnique(s: string, i: nat, q1: nat, q2: nat)
    requires BlockAt(s, i, q1) && BlockAt(s, i, q2)
    ensures q1 == q2
  {
    RunEndOfLines(s, i + |Marker|, q1);
    RunEndOfLines(s, i + |Marker|, q2);
  }

  /** The captured lines cannot be extended: no longer run starts at the same place. */
  lemma BlockMaximal(s: string, i: nat, q: nat, longer: nat)
    requires BlockAt(s, i, q) && q < longer
    ensures !LinesBetween(s, i + |Marker|, longer)
  {
    assert s[q] == '\n' && s[q - 1] == '\n';
  }

  /** Positions are tried left to right from `i`; the first that qualifies is returned. */
  function Search(s: string, i: nat): (r: Option<nat>)
    requires i <= |s|
    ensures r.Some? ==> i <= r.value <= |s| && HasBlock(s, r.value)
    ensures r.Some? ==> forall k: nat :: i <= k < r.value ==> !HasBlock(s, k)
    ensures r.None? ==> forall k: nat :: i <= k ==> !HasBlock(s, k)
    decreases |s| - i
  {
    QualifiesIff(s, i);
    if Qualifies(s, i) then Some(i)
    else if i == |s| then None
    else Search(s, i + 1)
  }

  lemma LinesSlice(s: string, p: nat, q: nat)
    requires LinesBetween(s, p, q)
    ensures IsLines(s[p..q])
  {
    var b := s[p..q];
    forall j | 0 < j < |b| && b[j] == '\n' ensures b[j - 1] != '\n' {
      assert b[j] == s[p + j] && b[j - 1] == s[p + j - 1];
    }
  }

  /** Where the pattern matches, the capture is the scanner's run, framed by the
      marker before it and the empty line after it. */
  lemma Capture(log: string, i: nat)
    requires HasBlock(log, i)
    ensures i + |Marker| <= RunEnd(log, i + |Marker|) < |log|
    ensures IsLines(log[i + |Marker|..RunEnd(log, i + |Marker|)])
    ensures OccursAt(log, Marker + log[i + |Marker|..RunEnd(log, i + |Marker|)] + "\n", i)
  {
    var p := i + |Marker|;
    var q := RunEnd(log, p);
    QualifiesIff(log, i);
    LinesSlice(log, p, q);
    assert log[i..q + 1] == log[i..p] + log[p..q] + [log[q]];
  }

  /** `preg_match` with the failed-scenario pattern, keeping capture group 1. */
  function FailedScenarios(log: string): (r: Result<string>)
    ensures r.Err? <==> forall i: nat :: !HasBlock(log, i)
    ensures r.Err? ==> r.error == RegexDidntMatch
    ensures r.Ok? ==> IsLines(r.value)
    ensures r.Ok? ==> exists i: nat :: Leftmost(log, i) && OccursAt(log, Marker + r.value + "\n", i)
  {
    match Search(log, 0)
    case None => Err(RegexDidntMatch)
    case Some(i) =>
      Capture(log, i);
      assert Leftmost(log, i);
      Ok(log[i + |Marker|..RunEnd(log, i + |Marker|)])
  }
}

=== FILE: text.dfy ===
/** Character- and string-level vocabulary shared by the other modules. */
module Text {

  /** `p` is a prefix of `s` (PHP: `substr($s, 0, strlen($p)) === $p`). */
  predicate StartsWith(s: string, p: string) {
    |p| <= |s| && s[..|p|] == p
  }

  /** `pat` occurs in `s` starting at index `i`. */
  predicate OccursAt(s: string, pat: string, i: nat) {
    i + |pat| <= |s| && s[i..i + |pat|] == pat
  }

  /** Occurrences in `s` past its first character are those of its tail, shifted by one. */
  lemma {:induction false} OccursAtTail(s: string, pat: string, i: nat)
    requires 0 < i && 0 < |s|
    ensures OccursAt(s, pat, i) <==> OccursAt(s[1..], pat, i - 1)
  {
    if i + |pat| <= |s| {
      var here := s[i..i + |pat|];
      var there := s[1..][i - 1..i - 1 + |pat|];
      forall k | 0 <= k < |pat| ensures here[k] == there[k] {
        assert here[k] == s[i + k];
        assert there[k] == s[i + k];
      }
      assert here == there;
    }
  }

  /** `pat` occurs somewhere in `s`. */
  ghost predicate Contains(s: string, pat: string) {
    exists i: nat :: OccursAt(s, pat, i)
  }

  /** Number of occurrences of the character `c` in `s`. */
  function Count(s: string, c: char): nat {
    if |s| == 0 then 0 else (if s[0] == c then 1 else 0) + Count(s[1..], c)
  }

  lemma {:induction false} CountAppend(a: string, b: string, c: char)
    ensures Count(a + b, c) == Count(a, c) + Count(b, c)
  {
    if |a| == 0 {
      assert a + b == b;
    } else {
      assert (a + b)[1..] == a[1..] + b;
      CountAppend(a[1..], b, c);
    }
  }

  lemma {:induction false} CountZero(s: string, c: char)
    ensures Count(s, c) == 0 <==> c !in s
  {
    if |s| > 0 {
      CountZero(s[1..], c);
      assert s == [s[0]] + s[1..];
    }
  }

  /** Index of the first `c` at or after `p`, or `|s|` when there is none
      (see `IndexFromSpec`). */
  function IndexFrom(s: string, c: char, p: nat): (i: nat)
    requires p <= |s|
    ensures p <= i <= |s|
    decreases |s| - p
  {
    if p == |s| || s[p] == c then p else IndexFrom(s, c, p + 1)
  }

  /** `IndexFrom` finds a `c`, or the end, with no `c` before it. */
  lemma {:induction false} IndexFromSpec(s: string, c: char, p: nat)
    requires p <= |s|
    ensures IndexFrom(s, c, p) < |s| ==> s[IndexFrom(s, c, p)] == c
    ensures forall j :: p <= j < IndexFrom(s, c, p) ==> s[j] != c
    decreases |s| - p
  {
    if p < |s| && s[p] != c {
      IndexFromSpec(s, c, p + 1);
    }
  }

  /** The index of the first `c` from `p` on is the one position that fits the description. */
  lemma IndexFromIs(s: string, c: char, p: nat, i: nat)
    requires p <= i <= |s|
    requires i < |s| ==> s[i] == c
    requires forall j :: p <= j < i ==> s[j] != c
    ensures IndexFrom(s, c, p) == i
  {
    IndexFromSpec(s, c, p);
  }

  /** In-order concatenation (PHP: `implode('', $parts)` on strings). */
  function Concat<T>(parts: seq<seq<T>>): seq<T> {
    if |parts| == 0 then [] else parts[0] + Concat(parts[1..])
  }

  /** Concatenating two runs of parts is concatenating each and appending. */
  lemma {:induction false} ConcatAppend<T>(a: seq<seq<T>>, b: seq<seq<T>>)
    ensures Concat(a + b) == Concat(a) + Concat(b)
    decreases |a|
  {
    if |a| > 0 {
      assert (a + b)[1..] == a[1..] + b;
      ConcatAppend(a[1..], b);
    } else {
      assert a + b == b;
    }
  }

  /** Every element of every part occurs in the concatenation. */
  lemma {:induction false} ConcatMember<T>(parts: seq<seq<T>>, k: nat, x: T)
    requires k < |parts| && x in parts[k]
    ensures x in Concat(parts)
    decreases k
  {
    if k > 0 {
      ConcatMember(parts[1..], k - 1, x);
    }
  }

  /** The parts with `sep` between neighbours (PHP: `join($sep, $parts)`). */
  function Join(sep: string, parts: seq<string>): string {
    if |parts| == 0 then ""
    else if |parts| == 1 then parts[0]
    else parts[0] + sep + Join(sep, parts[1..])
  }

  /** The first part of a join is its prefix. */
  lemma {:induction false} JoinHead(sep: string, parts: seq<string>)
    requires |parts| >= 1
    ensures |parts[0]| <= |Join(sep, parts)|
    ensures Join(sep, parts)[..|parts[0]|] == parts[0]
  {
  }

  /** Extending the first part extends the join by the same text. */
  lemma {:induction false} JoinExtendHead(sep: string, a: string, parts: seq<string>)
    requires |parts| >= 1
    ensures Join(sep, [a + parts[0]] + parts[1..]) == a + Join(sep, parts)
  {
    var xs := [a + parts[0]] + parts[1..];
    if |parts| > 1 {
      assert xs[1..] == parts[1..];
    }
  }

  /** Extending the first part extends the concatenation by the same text. */
  lemma {:induction false} ConcatExtendHead<T>(a: seq<T>, parts: seq<seq<T>>)
    requires |parts| >= 1
    ensures Concat([a + parts[0]] + parts[1..]) == a + Concat(parts)
  {
    var xs := [a + parts[0]] + parts[1..];
    assert xs[1..] == parts[1..];
  }
}

=== FILE: triage.dfy ===
/** The decision logic of `printStats`: state counting, which procs and steps are
    skipped, which are reported, which have their logs requested, and which step
    kinds have their failed scenarios extracted. Printing becomes a list of
    events; the HTTP calls become a store of already fetched logs. */
module Triage {
  import opened Text
  import opened Results
  import opened Logs
  import opened ProcName
  import opened Scenarios
  import opened Normalize
  import opened StateCounts

  const Success: string := "success"
  const Cancelled: string := "cancelled"

  /** Step names with this prefix run the behaviour-test suite. */
  const AcceptancePrefix: string := "acceptance"

  /** A step of a proc (`children` in the build JSON). */
  datatype Child = Child(state: string, name: string, pid: int)

  /** A proc of the build: its state, its environment and its steps. */
  datatype Proc = Proc(state: string, environ: Environ, children: seq<Child>)

  /** The logs the server returns, by step pid; a pid with no entry stands for a
      failed log request, whether the HTTP client throws on the answer or lets
      through an answer whose status is not 200. */
  type LogStore = map<int, seq<LogLine>>

  /** What the script prints and requests, in order. */
  datatype Event =
    | ProcReported(state: string, procName: string)
    | ChildReported(state: string, name: string, pid: int)
    | LogRequested(pid: int)  // made whether or not the request then succeeds
    | ScenariosListed(pid: int, failures: string)

  /** The events of a stretch of the walk and the exception that ended it, if any. */
  datatype Walk = Walk(events: seq<Event>, error: Option<Error>)

  /** A step that is neither a success nor cancelled has its log requested. */
  predicate NeedsLog(c: Child) {
    c.state != Success && c.state != Cancelled
  }

  predicate IsAcceptance(name: string) {
    StartsWith(name, AcceptancePrefix)
  }

  /** `f` is what the script prints for a step whose raw log is `log`. */
  predicate Listing(log: string, f: string) {
    FailedScenarios(log).Ok? && f == NormalizeFailures(FailedScenarios(log).value)
  }

  /** Event `e` is one that visiting step `c` can produce. */
  ghost predicate Explains(c: Child, logs: LogStore, e: Event) {
    match e
    case ProcReported(_, _) => false
    case ChildReported(st, n, p) => c.state != Success && st == c.state && n == c.name && p == c.pid
    case LogRequested(p) => NeedsLog(c) && p == c.pid
    case ScenariosListed(p, f) =>
      NeedsLog(c) && IsAcceptance(c.name) && p == c.pid && p in logs && Listing(FullLog(logs[p]), f)
  }

  /** What happens once a step's log has been fetched: only acceptance steps
      have an extraction rule, and their log must hold a failed-scenario block. */
  function Extract(name: string, pid: int, log: string): (w: Walk)
    ensures w.error != Some(LogRequestFailed)
    ensures w.error == Some(MissingExtraction) <==> !IsAcceptance(name)
    ensures w.error == Some(RegexDidntMatch) <==> IsAcceptance(name) && FailedScenarios(log).Err?
    ensures w.error.None? <==> IsAcceptance(name) && FailedScenarios(log).Ok?
    ensures w.error.None? ==> exists f :: w.events == [ScenariosListed(pid, f)] && Listing(log, f)
    ensures w.error.Some? ==> w.events == []
  {
    if IsAcceptance(name) then
      match FailedScenarios(log)
      case Ok(block) => Walk([ScenariosListed(pid, NormalizeFailures(block))], None)
      case Err(e) => Walk([], Some(e))
    else Walk([], Some(MissingExtraction))
  }

  /** One step of a proc that did not succeed. */
  function VisitChild(c: Child, logs: LogStore): (w: Walk)
    ensures c.state == Success ==> w == Walk([], None)
    ensures c.state != Success ==> |w.events| > 0 && w.events[0] == ChildReported(c.state, c.name, c.pid)
    ensures c.state == Cancelled ==> w == Walk([ChildReported(c.state, c.name, c.pid)], None)
    ensures LogRequested(c.pid) in w.events <==> NeedsLog(c)
    ensures forall e :: e in w.events ==> Explains(c, logs, e)
    ensures w.error == Some(LogRequestFailed) <==> NeedsLog(c) && c.pid !in logs
    ensures w.error == Some(MissingExtraction) <==> NeedsLog(c) && c.pid in logs && !IsAcceptance(c.name)
    ensures w.error == Some(RegexDidntMatch)
        <==> NeedsLog(c) && c.pid in logs && IsAcceptance(c.name) && FailedScenarios(FullLog(logs[c.pid])).Err?
    ensures w.error.None? && NeedsLog(c) ==> exists f :: ScenariosListed(c.pid, f) in w.events
  {
    if c.state == Success then Walk([], None)
    else
      var reported := [ChildReported(c.state, c.name, c.pid)];
      if c.state == Cancelled then Walk(reported, None)
      else
        var requested := reported + [LogRequested(c.pid)];
        if c.pid !in logs then Walk(requested, Some(LogRequestFailed))
        else
          var rest := Extract(c.name, c.pid, FullLog(logs[c.pid]));
          Walk(requested + rest.events, rest.error)
  }

  /** The steps of a proc in order, up to the first exception. */
  function VisitChildren(cs: seq<Child>, logs: LogStore): Walk
    decreases |cs|
  {
    if |cs| == 0 then Walk([], None)
    else
      var first := VisitChild(cs[0], logs);
      if first.error.Some? then first
      else
        var rest := VisitChildren(cs[1..], logs);
        Walk(first.events + rest.events, rest.error)
  }

  /** How many steps the inner loop reaches: all of them, or up to the one that throws. */
  function StepsReached(cs: seq<Child>, logs: LogStore): (n: nat)
    ensures n <= |cs|
    ensures forall j :: 0 <= j < n - 1 ==> VisitChild(cs[j], logs).error.None?
    ensures n < |cs| ==> 0 < n && VisitChild(cs[n - 1], logs).error.Some?
    decreases |cs|
  {
    if |cs| == 0 then 0
    else if VisitChild(cs[0], logs).error.Some? then 1
    else
      var n := StepsReached(cs[1..], logs);
      assert forall j :: 0 <= j < |cs| - 1 ==> cs[1..][j] == cs[j + 1];
      n + 1
  }

  /** The events of each step on its own, in step order. */
  function ChildWalks(cs: seq<Child>, logs: LogStore): (ws: seq<seq<Event>>)
    ensures |ws| == |cs|
  {
    if |cs| == 0 then [] else [VisitChild(cs[0], logs).events] + ChildWalks(cs[1..], logs)
  }

  /** Entry `j` of the per-step outputs is step `j`'s output. */
  lemma {:induction false} ChildWalksAt(cs: seq<Child>, logs: LogStore, j: nat)
    requires j < |cs|
    ensures ChildWalks(cs, logs)[j] == VisitChild(cs[j], logs).events
    decreases j
  {
    if j > 0 {
      ChildWalksAt(cs[1..], logs, j - 1);
    }
  }

  /** The per-step outputs of a prefix are the first step's, then those of the rest. */
  lemma {:induction false} ChildWalksCons(cs: seq<Child>, logs: LogStore, n: nat)
    requires 0 < n <= |cs|
    ensures ChildWalks(cs[..n], logs) == [VisitChild(cs[0], logs).events] + ChildWalks(cs[1..][..n - 1], logs)
  {
    assert cs[..n][1..] == cs[1..][..n - 1];
  }

  /** The inner loop's output is that of each step reached, in step order. */
  lemma {:induction false} VisitChildrenOrder(cs: seq<Child>, logs: LogStore)
    ensures VisitChildren(cs, logs).events == Concat(ChildWalks(cs[..StepsReached(cs, logs)], logs))
    decreases |cs|
  {
    if |cs| > 0 {
      var n := StepsReached(cs, logs);
      ChildWalksCons(cs, logs, n);
      var rest := ChildWalks(cs[1..][..n - 1], logs);
      if VisitChild(cs[0], logs).error.None? {
        VisitChildrenOrder(cs[1..], logs);
      } else {
        assert rest == [];
      }
    }
  }

  /** The inner loop finishes exactly when it reaches every step and the last does
      not throw; otherwise it ends with the exception of the last step reached. */
  lemma {:induction false} VisitChildrenReached(cs: seq<Child>, logs: LogStore)
    ensures VisitChildren(cs, logs).error.None? <==>
      StepsReached(cs, logs) == |cs| && (|cs| == 0 || VisitChild(cs[|cs| - 1], logs).error.None?)
    ensures VisitChildren(cs, logs).error.Some? ==>
      VisitChildren(cs, logs).error == VisitChild(cs[StepsReached(cs, logs) - 1], logs).error
    decreases |cs|
  {
    if |cs| > 0 && VisitChild(cs[0], logs).error.None? {
      VisitChildrenReached(cs[1..], logs);
      var m := StepsReached(cs[1..], logs);
      if |cs| > 1 {
        assert cs[1..][|cs| - 2] == cs[|cs| - 1];
      }
      if m > 0 {
        assert cs[1..][m - 1] == cs[m];
      }
    }
  }

  /** Every step the inner loop reaches, the throwing one included, has all its
      output printed: its line unless it succeeded, and its log request unless it
      succeeded or was cancelled. */
  lemma {:induction false} VisitChildrenReports(cs: seq<Child>, logs: LogStore, j: nat)
    requires j < StepsReached(cs, logs)
    ensures forall e :: e in VisitChild(cs[j], logs).events ==> e in VisitChildren(cs, logs).events
    ensures cs[j].state != Success ==> ChildReported(cs[j].state, cs[j].name, cs[j].pid) in VisitChildren(cs, logs).events
    ensures NeedsLog(cs[j]) ==> LogRequested(cs[j].pid) in VisitChildren(cs, logs).events
  {
    var n := StepsReached(cs, logs);
    var ws := ChildWalks(cs[..n], logs);
    VisitChildrenOrder(cs, logs);
    ChildWalksAt(cs[..n], logs, j);
    forall e | e in VisitChild(cs[j], logs).events ensures e in VisitChildren(cs, logs).events {
      ConcatMember(ws, j, e);
    }
  }

  /** Every event of a proc's steps is one that one of the steps can produce. */
  lemma {:induction false} VisitChildrenTrace(cs: seq<Child>, logs: LogStore)
    ensures forall e :: e in VisitChildren(cs, logs).events ==> exists j :: 0 <= j < |cs| && Explains(cs[j], logs, e)
    decreases |cs|
  {
    if |cs| > 0 && VisitChild(cs[0], logs).error.None? {
      VisitChildrenTrace(cs[1..], logs);
      assert forall j :: 0 <= j < |cs| - 1 ==> cs[1..][j] == cs[j + 1];
    }
  }

  /** A proc's steps throw exactly when one of them throws, and then its exception. */
  lemma {:induction false} VisitChildrenError(cs: seq<Child>, logs: LogStore)
    ensures VisitChildren(cs, logs).error.Some? ==>
      exists j :: 0 <= j < |cs| && VisitChild(cs[j], logs).error == VisitChildren(cs, logs).error
    ensures VisitChildren(cs, logs).error.None? ==> forall j :: 0 <= j < |cs| ==> VisitChild(cs[j], logs).error.None?
    decreases |cs|
  {
    if |cs| > 0 && VisitChild(cs[0], logs).error.None? {
      VisitChildrenError(cs[1..], logs);
      assert forall j :: 0 <= j < |cs| - 1 ==> cs[1..][j] == cs[j + 1];
    }
  }

  /** One proc: a success is passed over without looking at its steps. */
  function VisitProc(p: Proc, logs: LogStore): (w: Walk)
    ensures p.state == Success ==> w == Walk([], None)
    ensures p.state != Success ==> |w.events| > 0 && w.events[0] == ProcReported(p.state, GetProcName(p.environ))
  {
    if p.state == Success then Walk([], None)
    else
      var inner := VisitChildren(p.children, logs);
      Walk([ProcReported(p.state, GetProcName(p.environ))] + inner.events, inner.error)
  }

  /** After its header, a proc's events are those of its steps. */
  lemma {:induction false} VisitProcTrace(p: Proc, logs: LogStore)
    ensures p.state != Success ==> forall e :: e in VisitProc(p, logs).events[1..] ==>
      exists j :: 0 <= j < |p.children| && Explains(p.children[j], logs, e)
  {
    if p.state != Success {
      var inner := VisitChildren(p.children, logs);
      VisitChildrenTrace(p.children, logs);
      assert VisitProc(p, logs).events[1..] == inner.events;
    }
  }

  /** A proc throws exactly when it is not a success and one of its steps throws. */
  lemma {:induction false} VisitProcError(p: Proc, logs: LogStore)
    ensures VisitProc(p, logs).error.Some? <==>
      p.state != Success && exists j :: 0 <= j < |p.children| && VisitChild(p.children[j], logs).error.Some?
    ensures VisitProc(p, logs).error.Some? ==>
      exists j :: 0 <= j < |p.children| && VisitChild(p.children[j], logs).error == VisitProc(p, logs).error
  {
    VisitChildrenError(p.children, logs);
  }

  /** Number of procs in `procs` whose state is `state`. */
  function StateCount(procs: seq<Proc>, state: string): nat {
    if |procs| == 0 then 0
    else (if procs[0].state == state then 1 else 0) + StateCount(procs[1..], state)
  }

  /** How many procs the walk reaches: all of them, or up to the one that throws. */
  function Visited(procs: seq<Proc>, logs: LogStore): (n: nat)
    ensures n <= |procs|
    ensures forall i :: 0 <= i < n - 1 ==> VisitProc(procs[i], logs).error.None?
    ensures n < |procs| ==> 0 < n && VisitProc(procs[n - 1], logs).error.Some?
    ensures n == |procs| <==> forall i :: 0 <= i < |procs| - 1 ==> VisitProc(procs[i], logs).error.None?
    decreases |procs|
  {
    if |procs| == 0 then 0
    else if VisitProc(procs[0], logs).error.Some? then 1
    else
      var n := Visited(procs[1..], logs);
      assert forall i :: 0 <= i < |procs| - 1 ==> procs[1..][i] == procs[i + 1];
      n + 1
  }

  /** The outcome of `printStats` on a build: final counters, events, exception. */
  datatype Run = Run(counts: Counts, events: seq<Event>, error: Option<Error>)

  /** Event `e` is accounted for by the build: a non-success proc's header, or an
      event that one of that proc's steps can produce. */
  ghost predicate Accounted(procs: seq<Proc>, logs: LogStore, e: Event) {
    || (exists i :: 0 <= i < |procs| && procs[i].state != Success
          && e == ProcReported(procs[i].state, GetProcName(procs[i].environ)))
    || (exists i, j :: 0 <= i < |procs| && 0 <= j < |procs[i].children| && procs[i].state != Success
          && Explains(procs[i].children[j], logs, e))
  }

  lemma AccountedShift(procs: seq<Proc>, logs: LogStore, events: seq<Event>)
    requires |procs| > 0
    requires forall e :: e in events ==> Accounted(procs[1..], logs, e)
    ensures forall e :: e in events ==> Accounted(procs, logs, e)
  {
    forall e | e in events ensures Accounted(procs, logs, e) {
      if exists i :: 0 <= i < |procs[1..]| && procs[1..][i].state != Success
          && e == ProcReported(procs[1..][i].state, GetProcName(procs[1..][i].environ)) {
        var i :| 0 <= i < |procs[1..]| && procs[1..][i].state != Success
          && e == ProcReported(procs[1..][i].state, GetProcName(procs[1..][i].environ));
        assert procs[1..][i] == procs[i + 1];
      } else {
        var i, j :| 0 <= i < |procs[1..]| && 0 <= j < |procs[1..][i].children| && procs[1..][i].state != Success
          && Explains(procs[1..][i].children[j], logs, e);
        assert procs[1..][i] == procs[i + 1];
      }
    }
  }

  lemma {:induction false} AccountedHead(procs: seq<Proc>, logs: LogStore, w: Walk)
    requires |procs| > 0 && w == VisitProc(procs[0], logs)
    ensures forall e :: e in w.events ==> Accounted(procs, logs, e)
  {
    VisitProcTrace(procs[0], logs);
    forall e | e in w.events ensures Accounted(procs, logs, e) {
      if e != w.events[0] {
        var k :| 0 <= k < |w.events| && w.events[k] == e;
        assert e in w.events[1..] by { assert w.events[1..][k - 1] == e; }
      }
    }
  }

  /** The walk over the procs from the counters `counts` on. */
  function RunFrom(procs: seq<Proc>, logs: LogStore, counts: Counts): (r: Run)
    ensures Total(r.counts) == Total(counts) + Visited(procs, logs)
    ensures forall state :: CountOf(r.counts, state) == CountOf(counts, state) + StateCount(procs[..Visited(procs, logs)], state)
    decreases |procs|
  {
    if |procs| == 0 then Run(counts, [], None)
    else
      var bumped := Bump(counts, procs[0].state);
      var w := VisitProc(procs[0], logs);
      assert procs[..1] == [procs[0]];
      if w.error.Some? then Run(bumped, w.events, w.error)
      else
        var rest := RunFrom(procs[1..], logs, bumped);
        assert procs[..Visited(procs, logs)][1..] == procs[1..][..Visited(procs[1..], logs)];
        Run(rest.counts, w.events + rest.events, rest.error)
  }

  /** The walk keeps the counter keys distinct, as a PHP array does. */
  lemma {:induction false} RunFromDistinct(procs: seq<Proc>, logs: LogStore, counts: Counts)
    requires DistinctKeys(counts)
    ensures DistinctKeys(RunFrom(procs, logs, counts).counts)
    decreases |procs|
  {
    if |procs| > 0 {
      BumpDistinct(counts, procs[0].state);
      if VisitProc(procs[0], logs).error.None? {
        RunFromDistinct(procs[1..], logs, Bump(counts, procs[0].state));
      }
    }
  }

  /** The walk ends without an exception exactly when no proc throws. */
  lemma {:induction false} RunFromCompletes(procs: seq<Proc>, logs: LogStore, counts: Counts)
    ensures RunFrom(procs, logs, counts).error.None? <==> forall i :: 0 <= i < |procs| ==> VisitProc(procs[i], logs).error.None?
    decreases |procs|
  {
    if |procs| > 0 && VisitProc(procs[0], logs).error.None? {
      RunFromCompletes(procs[1..], logs, Bump(counts, procs[0].state));
      assert forall i :: 0 <= i < |procs| - 1 ==> procs[1..][i] == procs[i + 1];
    }
  }

  /** An exception ends the walk at the last proc reached, which is the one that threw it. */
  lemma {:induction false} RunFromError(procs: seq<Proc>, logs: LogStore, counts: Counts)
    ensures RunFrom(procs, logs, counts).error.None? ==> Visited(procs, logs) == |procs|
    ensures RunFrom(procs, logs, counts).error.Some? ==>
      0 < Visited(procs, logs) && RunFrom(procs, logs, counts).error == VisitProc(procs[Visited(procs, logs) - 1], logs).error
    decreases |procs|
  {
    if |procs| > 0 && VisitProc(procs[0], logs).error.None? {
      var bumped := Bump(counts, procs[0].state);
      RunFromError(procs[1..], logs, bumped);
      assert Visited(procs, logs) == Visited(procs[1..], logs) + 1;
      if RunFrom(procs[1..], logs, bumped).error.Some? {
        assert procs[1..][Visited(procs[1..], logs) - 1] == procs[Visited(procs, logs) - 1];
      }
    }
  }

  /** Every event of the walk is accounted for by the build. */
  lemma {:induction false} RunFromTrace(procs: seq<Proc>, logs: LogStore, counts: Counts)
    ensures forall e :: e in RunFrom(procs, logs, counts).events ==> Accounted(procs, logs, e)
    decreases |procs|
  {
    if |procs| > 0 {
      var w := VisitProc(procs[0], logs);
      AccountedHead(procs, logs, w);
      if w.error.None? {
        var rest := RunFrom(procs[1..], logs, Bump(counts, procs[0].state));
        RunFromTrace(procs[1..], logs, Bump(counts, procs[0].state));
        AccountedShift(procs, logs, rest.events);
      }
    }
  }

  /** The events of each proc on its own, in proc order. */
  function ProcWalks(procs: seq<Proc>, logs: LogStore): (ws: seq<seq<Event>>)
    ensures |ws| == |procs|
  {
    if |procs| == 0 then [] else [VisitProc(procs[0], logs).events] + ProcWalks(procs[1..], logs)
  }

  /** Entry `i` of the per-proc outputs is proc `i`'s output. */
  lemma {:induction false} ProcWalksAt(procs: seq<Proc>, logs: LogStore, i: nat)
    requires i < |procs|
    ensures ProcWalks(procs, logs)[i] == VisitProc(procs[i], logs).events
    decreases i
  {
    if i > 0 {
      ProcWalksAt(procs[1..], logs, i - 1);
    }
  }

  /** The per-proc outputs of a prefix are the first proc's, then those of the rest. */
  lemma {:induction false} ProcWalksCons(procs: seq<Proc>, logs: LogStore, n: nat)
    requires 0 < n <= |procs|
    ensures ProcWalks(procs[..n], logs) == [VisitProc(procs[0], logs).events] + ProcWalks(procs[1..][..n - 1], logs)
  {
    assert procs[..n][1..] == procs[1..][..n - 1];
  }

  /** The walk's output is that of each proc reached, in proc order. */
  lemma {:induction false} RunFromOrder(procs: seq<Proc>, logs: LogStore, counts: Counts)
    ensures RunFrom(procs, logs, counts).events == Concat(ProcWalks(procs[..Visited(procs, logs)], logs))
    decreases |procs|
  {
    if |procs| > 0 {
      var n := Visited(procs, logs);
      ProcWalksCons(procs, logs, n);
      var rest := ProcWalks(procs[1..][..n - 1], logs);
      if VisitProc(procs[0], logs).error.None? {
        RunFromOrder(procs[1..], logs, Bump(counts, procs[0].state));
      } else {
        assert rest == [];
      }
    }
  }

  /** `printStats` on a build's procs, with the logs the server would return. */
  function PrintStats(procs: seq<Proc>, logs: LogStore): (r: Run)
    ensures Total(r.counts) == Visited(procs, logs)
    ensures r.error.None? ==> Total(r.counts) == |procs|
  {
    InitialCountsZero();
    RunFromError(procs, logs, InitialCounts);
    RunFrom(procs, logs, InitialCounts)
  }

  /** Each final counter is the number of procs reached whose state is its key. */
  lemma {:induction false} PrintStatsCounts(procs: seq<Proc>, logs: LogStore, state: string)
    ensures CountOf(PrintStats(procs, logs).counts, state) == StateCount(procs[..Visited(procs, logs)], state)
  {
    InitialCountsZero();
  }

  /** The counters printStats ends with have distinct keys. */
  lemma {:induction false} PrintStatsDistinct(procs: seq<Proc>, logs: LogStore)
    ensures DistinctKeys(PrintStats(procs, logs).counts)
  {
    InitialCountsZero();
    RunFromDistinct(procs, logs, InitialCounts);
  }

  /** Every event printStats produces is accounted for by the build. */
  lemma {:induction false} PrintStatsTrace(procs: seq<Proc>, logs: LogStore)
    ensures forall e :: e in PrintStats(procs, logs).events ==> Accounted(procs, logs, e)
  {
    RunFromTrace(procs, logs, InitialCounts);
  }

  /** The printed output is each reached proc's output in proc order; within a
      proc, its header and then each reached step's output in step order. */
  lemma {:induction false} PrintStatsOrder(procs: seq<Proc>, logs: LogStore)
    ensures PrintStats(procs, logs).events == Concat(ProcWalks(procs[..Visited(procs, logs)], logs))
  {
    RunFromOrder(procs, logs, InitialCounts);
  }

  /** Everything a reached proc produces is in the output, the throwing proc included. */
  lemma {:induction false} PrintStatsContains(procs: seq<Proc>, logs: LogStore, i: nat, e: Event)
    requires i < Visited(procs, logs) && e in VisitProc(procs[i], logs).events
    ensures e in PrintStats(procs, logs).events
  {
    PrintStatsOrder(procs, logs);
    var ws := ProcWalks(procs[..Visited(procs, logs)], logs);
    ProcWalksAt(procs[..Visited(procs, logs)], logs, i);
    ConcatMember(ws, i, e);
  }

  /** For a reached non-success proc, its header is printed, and every reached
      step that did not succeed is reported and, unless cancelled, has its log
      requested. */
  lemma {:induction false} PrintStatsReports(procs: seq<Proc>, logs: LogStore, i: nat, j: nat)
    requires i < |procs| && j < |procs[i].children|
    ensures i < Visited(procs, logs) && procs[i].state != Success ==>
      ProcReported(procs[i].state, GetProcName(procs[i].environ)) in PrintStats(procs, logs).events
    ensures (i < Visited(procs, logs) && procs[i].state != Success && j < StepsReached(procs[i].children, logs)
             && procs[i].children[j].state != Success) ==>
        ChildReported(procs[i].children[j].state, procs[i].children[j].name, procs[i].children[j].pid)
          in PrintStats(procs, logs).events
    ensures (i < Visited(procs, logs) && procs[i].state != Success && j < StepsReached(procs[i].children, logs)
             && NeedsLog(procs[i].children[j])) ==>
        LogRequested(procs[i].children[j].pid) in PrintStats(procs, logs).events
  {
    var p := procs[i];
    var c := p.children[j];
    if i < Visited(procs, logs) && p.state != Success {
      var inner := VisitChildren(p.children, logs);
      assert VisitProc(p, logs).events == [ProcReported(p.state, GetProcName(p.environ))] + inner.events;
      PrintStatsContains(procs, logs, i, ProcReported(p.state, GetProcName(p.environ)));
      if j < StepsReached(p.children, logs) {
        VisitChildrenReports(p.children, logs, j);
        if c.state != Success {
          PrintStatsContains(procs, logs, i, ChildReported(c.state, c.name, c.pid));
        }
        if NeedsLog(c) {
          PrintStatsContains(procs, logs, i, LogRequested(c.pid));
        }
      }
    }
  }

  /** In a run without an exception, every step of every non-success proc that is
      not a success is reported, and every one that is not cancelled either has
      its log requested. */
  lemma {:induction false} PrintStatsReportsAll(procs: seq<Proc>, logs: LogStore)
    ensures PrintStats(procs, logs).error.None? ==>
      forall i, j ::
        (0 <= i < |procs| && 0 <= j < |procs[i].children| && procs[i].state != Success
         && procs[i].children[j].state != Success) ==>
          ChildReported(procs[i].children[j].state, procs[i].children[j].name, procs[i].children[j].pid)
            in PrintStats(procs, logs).events
          && (NeedsLog(procs[i].children[j]) ==> LogRequested(procs[i].children[j].pid) in PrintStats(procs, logs).events)
  {
    RunFromError(procs, logs, InitialCounts);
    RunFromCompletes(procs, logs, InitialCounts);
    if PrintStats(procs, logs).error.None? {
      forall i, j | 0 <= i < |procs| && 0 <= j < |procs[i].children| && procs[i].state != Success
        && procs[i].children[j].state != Success
        ensures ChildReported(procs[i].children[j].state, procs[i].children[j].name, procs[i].children[j].pid)
            in PrintStats(procs, logs).events
          && (NeedsLog(procs[i].children[j]) ==> LogRequested(procs[i].children[j].pid) in PrintStats(procs, logs).events)
      {
        assert VisitProc(procs[i], logs).error.None?;
        VisitChildrenError(procs[i].children, logs);
        PrintStatsReports(procs, logs, i, j);
      }
    }
  }

  /** Logs are requested only for steps of non-success procs that are neither
      successes nor cancelled, and scenario lists come only from acceptance steps. */
  lemma {:induction false} PrintStatsRequests(procs: seq<Proc>, logs: LogStore, pid: int, f: string)
    ensures LogRequested(pid) in PrintStats(procs, logs).events ==>
      exists i, j :: 0 <= i < |procs| && 0 <= j < |procs[i].children| && procs[i].state != Success
        && procs[i].children[j].pid == pid && NeedsLog(procs[i].children[j])
    ensures ScenariosListed(pid, f) in PrintStats(procs, logs).events ==>
      exists i, j :: 0 <= i < |procs| && 0 <= j < |procs[i].children| && procs[i].state != Success
        && procs[i].children[j].pid == pid && NeedsLog(procs[i].children[j])
        && IsAcceptance(procs[i].children[j].name) && pid in logs && Listing(FullLog(logs[pid]), f)
  {
    PrintStatsTrace(procs, logs);
  }

  /** An exception comes from a step of a non-success proc whose handling throws it. */
  lemma {:induction false} PrintStatsError(procs: seq<Proc>, logs: LogStore)
    ensures PrintStats(procs, logs).error.Some? ==>
      exists i, j :: 0 <= i < |procs| && 0 <= j < |procs[i].children| && procs[i].state != Success
        && VisitChild(procs[i].children[j], logs).error == PrintStats(procs, logs).error
  {
    RunFromError(procs, logs, InitialCounts);
    var r := PrintStats(procs, logs);
    if r.error.Some? {
      var i := Visited(procs, logs) - 1;
      VisitProcError(procs[i], logs);
    }
  }

  /** A run without an exception means every step that needed its log was an
      acceptance step whose log was fetched and held a failed-scenario block. */
  lemma {:induction false} PrintStatsCompleted(procs: seq<Proc>, logs: LogStore)
    ensures PrintStats(procs, logs).error.None? ==>
      forall i, j ::
        (0 <= i < |procs| && 0 <= j < |procs[i].children| && procs[i].state != Success
         && NeedsLog(procs[i].children[j])) ==>
          var c := procs[i].children[j];
          IsAcceptance(c.name) && c.pid in logs && FailedScenarios(FullLog(logs[c.pid])).Ok?
  {
    RunFromCompletes(procs, logs, InitialCounts);
    if PrintStats(procs, logs).error.None? {
      forall i, j | 0 <= i < |procs| && 0 <= j < |procs[i].children| && procs[i].state != Success
        && NeedsLog(procs[i].children[j])
        ensures IsAcceptance(procs[i].children[j].name) && procs[i].children[j].pid in logs
          && FailedScenarios(FullLog(logs[procs[i].children[j].pid])).Ok?
      {
        assert VisitProc(procs[i], logs).error.None?;
        VisitProcError(procs[i], logs);
        assert VisitChild(procs[i].children[j], logs).error.None?;
      }
    }
  }
}
